=== FILE: README.md ===
# Brain — a Dafny model of its decision logic

Brain indexes a user's local files into a vector store and answers questions
over them. Three pieces of sequential decision logic are modelled here:

* **Ingestion** (`AiService`, `VectorStore`): the API's `ingest` keeps the
  store consistent with the files. It probes for one stored chunk of the file
  (a filtered similarity search with k = 1). When that chunk's modification
  time is at least the request's, the request is skipped. Otherwise it deletes
  every chunk of the file, splits the new content and adds the chunks, each
  tagged with the file path and its time. Any exception is caught and answered
  with `status: "error"`. `formatDocumentsAsString` is modelled too.
  The store is a `seq<Entry>`. The splitter is a function-valued parameter.
  Which matching entry the probe returns is a `choice` parameter. A `Fault`
  parameter names the step that throws.
* **Watcher** (`WatcherFilter`, `ScanPaths`, `Debounce`, `GoPath`, `Strings`):
  - the path filter `shouldProcess`;
  - the line parsing of the scan-path configuration file;
  - the per-path 10-second cooldown and the size, emptiness and text gates of
    `ingestFile`.
  The functions used from Go's `strings`, `unicode` and `path/filepath`
  packages are written out as Dafny functions.
* **Chat client** (`Chat`): the fields that `model.Update` changes (history,
  loading flag, error, input value, window/viewport/input sizes) and the
  history and input-box widths computed by `renderHistory` and `View`.

Time is an integer. Ingest times are milliseconds, as JavaScript `Date`
comparison uses. Watcher times are nanoseconds, as Go's `time.Duration` uses.

`ingest` catches every exception and answers `{status: 'error'}`
(brain-api/src/ai/ai.service.ts:125-131), so the rethrow in the queue consumer
(brain-api/src/queue/queue.consumer.ts:23) never fires for an ingest failure.
The model answers `Response.Failed`. There is one text splitter, with chunk
size 1000 and overlap 100 (brain-api/src/ai/ai.service.ts:47-50).

Two consequences of the code as written are proved as lemmas:

* `AiService.DeleteGapAdmitsOlderVersion`: the delete-then-add replacement is
  not atomic. A failure after the delete leaves the file with no entries. A
  later request with an older time is then indexed, so the stored time goes
  back.
* `Debounce.EmptyAttemptSuppressesFollowingWrite`: the watcher records the
  cooldown time before its gates. A file seen empty (just created) therefore
  starts the cooldown, and a write within 10 s is dropped.

## Model

| member | source | states |
|---|---|---|
| AiService.Probe | brain-api/src/ai/ai.service.ts:79-87 | the k=1 filtered search returns nothing exactly when the file has no entries, otherwise one stored entry of that file |
| AiService.Ingest | brain-api/src/ai/ai.service.ts:71-132 | other files' entries are unchanged by every outcome; a skip leaves the store as it was; a re-index leaves exactly the tagged chunks as the file's entries and reports their number; without a throw in the probe, the answer is "up to date" exactly when the probed entry is at least as new as the request; the result is an error exactly when a step throws before or instead of a skip; an error leaves either the old store or no entries for the file, and an error before the delete (in the probe or the delete itself) leaves the store as it was |
| AiService.StaleRequestSkipped | brain-api/src/ai/ai.service.ts:86-97 | if the probed entry's time is >= the request's time, the answer is "up to date" and the store is unchanged |
| AiService.ProbeChoiceIrrelevant | brain-api/src/ai/ai.service.ts:79-91 | while each file's entries share one time, the ingest is the same whichever entry the probe returns |
| AiService.SkipIffStoredIsAsNew | brain-api/src/ai/ai.service.ts:86-97 | with one time per file, an ingest skips if and only if the file's stored time is at least the request's |
| AiService.FirstIngestAppends | brain-api/src/ai/ai.service.ts:106-117 | for a file with no entries, a successful ingest is just the store followed by the tagged chunks |
| AiService.ChunkCountIsAppendedCount | brain-api/src/ai/ai.service.ts:112-124 | the reported chunk count is the number of entries added (that they sit at the end of the store belongs to the sequence representation) |
| AiService.FailureAfterDeleteLeavesNoEntries | brain-api/src/ai/ai.service.ts:107-131 | a throw in the splitter or the add after the delete answers "error" and leaves the file with zero entries |
| AiService.IngestPreservesUniformTimes | brain-api/src/ai/ai.service.ts:107-117 | every ingest keeps all entries of one file on one modification time |
| AiService.StoredTimeNeverDecreases | brain-api/src/ai/ai.service.ts:86-117 | when a file has entries before and after an ingest, the stored time after is no earlier |
| AiService.ReingestSkips | brain-api/src/ai/ai.service.ts:79-117 | re-ingesting the same path, content and time right after it was indexed with at least one chunk is skipped with the store unchanged |
| AiService.NoChunksMeansNoSkip | brain-api/src/ai/ai.service.ts:86-117 | when the splitter yields no chunk, the same request is re-indexed instead of skipped |
| AiService.RunKeepsTimesMonotone | brain-api/src/ai/ai.service.ts:71-132 | over any sequence of ingests run one after another, files keep one time each; when no call for a file fails after the delete or yields zero chunks, that file once indexed stays indexed at a time no earlier |
| AiService.DeleteGapAdmitsOlderVersion | brain-api/src/ai/ai.service.ts:106-131 | after a splitter failure following the delete, an older version of the file is indexed and the stored time goes back |
| AiService.IndexThenOlderIsSkipped | brain-api/src/ai/ai.service.ts:71-124 | example (one instance of FirstIngestAppends and StaleRequestSkipped): a new file is indexed with one chunk; the same file offered with an earlier time is then skipped with the store unchanged |
| AiService.FormatDocuments | brain-api/src/ai/ai.service.ts:15-17 | no documents give ""; one document gives its text; otherwise the text starts with the first page and its length is the page lengths plus 2 per separator |
| AiService.FormatSplitsBetweenDocuments | brain-api/src/ai/ai.service.ts:15-17 | the formatted text is the documents before `i`, then "\n\n", then the rest, which starts with document `i`'s page text |
| VectorStore.DeleteAbsentIsNoOp | brain-api/src/ai/ai.service.ts:106-109 | deleting by a source filter that matches no entry leaves the store unchanged |
| VectorStore.DeleteSource | brain-api/src/ai/ai.service.ts:107-109 | the delete by the filter `{source}` keeps exactly the entries of other sources and never grows the store |
| VectorStore.Tag | brain-api/src/ai/ai.service.ts:112-115 | one entry per chunk, in order, carrying the chunk's text, the file path as source and the request's time |
| VectorStore.DeleteSourceEntries | brain-api/src/ai/ai.service.ts:107-109 | after the delete, the file has no entries and every other file keeps its entries in order |
| VectorStore.ReplaceSource | brain-api/src/ai/ai.service.ts:106-117 | delete-then-add makes the file's entries exactly the added ones and keeps every other file's entries |
| VectorStore.StoredTime | brain-api/src/ai/ai.service.ts:87 | the stored time is present exactly when the file has entries; it is the time of one of them, and of all of them when each file has one time |
| Strings.Join | brain-api/src/ai/ai.service.ts:16 | JavaScript `join`: "" for no parts, the part itself for one, otherwise starts with the first part; length is the part lengths plus one separator between each pair |
| Strings.JoinConcat | brain-api/src/ai/ai.service.ts:16 | joining two non-empty runs of parts is joining each with one separator between them |
| WatcherFilter.ShouldProcess | brain-watcher/main.go:94-122 | a path containing "/d/" or ending in "/d" for a blocklisted d is refused, file or directory; an unblocked file passes iff its base name or its extension is whitelisted; an unblocked directory passes |
| WatcherFilter.BlockedByNeedsSeparatorBefore | brain-watcher/main.go:96-101 | a blocklist entry only blocks a path in which it occurs right after a '/' |
| WatcherFilter.NoSeparatorBeforeNotBlocked | brain-watcher/main.go:96-101 | an entry does not block a path in which no '/' is followed by the entry's first character |
| WatcherFilter.RebuildIsNotBuild | brain-watcher/main.go:96-101 | "/p/rebuild/f.md" is not blocked by "build": an entry matches whole path elements only |
| WatcherFilter.NodeModulesRefused | brain-watcher/main.go:96-101 | every path under a node_modules directory is blocked |
| Strings.Contains | brain-watcher/main.go:98 | `strings.Contains` is true iff the needle occurs at some position |
| GoPath.Base | brain-watcher/main.go:105 | `filepath.Base` is never empty, holds no '/' unless it is "/", is "." for "", "/" for all-slash paths, and otherwise is the final element: the suffix, after the last '/', of the path with its trailing '/' removed |
| GoPath.Ext | brain-watcher/main.go:112 | `filepath.Ext` is "" or a suffix of the path that starts with '.', holds no '/' and no further '.' |
| GoPath.ExtEmptyIff | brain-watcher/main.go:112 | `filepath.Ext` is "" exactly when every '.' in the path has a '/' after it, i.e. the final element holds no '.' |
| GoPath.Join | brain-watcher/main.go:148 | joining home and a relative part: an empty element is ignored (either part alone is the result), empty iff both are empty, starts with the directory, ends with the name, with one '/' between two non-empty parts |
| Strings.HasPrefix | brain-watcher/main.go:145-147 | `strings.HasPrefix`: the first characters of the string are the prefix |
| Strings.HasPrefixIffConcat | brain-watcher/main.go:145-147 | a string has a prefix exactly when it is that prefix followed by some string |
| Strings.HasSuffix | brain-watcher/main.go:98 | `strings.HasSuffix`: the last characters of the string are the suffix |
| Strings.HasSuffixIffConcat | brain-watcher/main.go:98 | a string has a suffix exactly when it is some string followed by that suffix |
| Strings.IsSpace | brain-watcher/main.go:144 | `unicode.IsSpace`: exactly U+0009-U+000D, U+0020, U+0085, U+00A0, U+1680, U+2000-U+200A, U+2028, U+2029, U+202F, U+205F and U+3000 |
| Strings.TrimSpace | brain-watcher/main.go:144 | the result has no white space at either end, is an infix of the input starting after its leading white space, with only white space around it |
| Strings.TrimSpaceEmptyIffAllSpace | brain-watcher/main.go:144 | trimming leaves nothing exactly when the line is all white space (a blank line) |
| ScanPaths.ExpandHome | brain-watcher/main.go:127-129 | a path without a leading "~/" is unchanged; otherwise, through the uncleaned `Join`, the result starts with the home directory and ends with the rest after "~/", with one '/' between them when both are non-empty |
| ScanPaths.ParseLine | brain-watcher/main.go:144-150 | a line is dropped iff it is blank or a '#' comment once trimmed; a kept line gives its trimmed form, or `Join(home, rest)` when it starts with "~/" |
| ScanPaths.ParseScanPaths | brain-watcher/main.go:141-153 | never more paths than lines; which paths, and in what order, is fixed by ParseConcat and the two line lemmas below |
| ScanPaths.NothingDroppedIffAllKept | brain-watcher/main.go:141-153 | the loader yields one path per line exactly when no line is blank or a comment after trimming |
| ScanPaths.ParseConcat | brain-watcher/main.go:143-152 | the paths of two runs of lines are the paths of each, in order |
| ScanPaths.DroppedLineContributesNothing | brain-watcher/main.go:144-145 | a blank or comment line anywhere contributes nothing |
| ScanPaths.KeptLineContributesItsPath | brain-watcher/main.go:144-150 | a kept line contributes exactly its own path at its own position |
| ScanPaths.ParsedPathIsFixed | brain-watcher/main.go:144-150 | with an absolute, trimmed home, a produced path parses to itself |
| ScanPaths.ParseIdempotent | brain-watcher/main.go:143-152 | with an absolute, trimmed home, parsing the produced paths again yields them unchanged |
| ScanPaths.LoadPathsToScan | brain-watcher/main.go:125-154 | the config path has "~/" expanded; a missing file gives an empty list; other open or scan errors fail; otherwise the parsed lines |
| Debounce.Debounce | brain-watcher/main.go:275-283 | a call is dropped iff the path has a recorded time less than 10 s before now; a drop leaves the map unchanged; an accepted call records now and no other key changes |
| Debounce.AcceptedAfterRecorded | brain-watcher/main.go:276-282 | with a clock that never goes back, an accepted call for a path comes at least the cooldown after that path's recorded time |
| Debounce.AcceptedCallsSpaced | brain-watcher/main.go:276-282 | with a clock that never goes back, any two accepted calls for the same path are at least 10 s apart |
| Debounce.IngestFile | brain-watcher/main.go:273-326 | the cooldown time is recorded whatever the later gates decide; once past the cooldown, a file is refused as too large iff its size exceeds 25 MiB; the stat failure, read failure and empty-file outcomes happen exactly when their gate is the first to fail; a non-empty read is sent, with the path, content and stat time, exactly when its sniffed type starts with "text/", and is otherwise refused with that type |
| Debounce.SizeLimitIsInclusive | brain-watcher/main.go:296-300 | a text file of exactly 25·1024·1024 bytes is still sent |
| Debounce.EmptyAttemptSuppressesFollowingWrite | brain-watcher/main.go:275-312 | an attempt rejected as empty starts the cooldown, so a call for the same path within 10 s is dropped |
| Chat.InitialModel | brain-cli/chat.go:98-123 | the client starts with an empty history and input, not loading, with no error |
| Chat.Resize | brain-cli/chat.go:151-170 | viewport width = w; viewport height = h-5 if h > 5 else 10; input width = w-6 if w > 8 else 20; history, loading, error and input untouched |
| Chat.Update | brain-cli/chat.go:145-245 | every transition keeps the old history as a prefix and adds at most one message; a question is sent only when not loading, and it starts loading |
| Chat.EnterIgnoredWhileLoadingOrEmpty | brain-cli/chat.go:182-190 | Enter while loading or with an empty input leaves the state unchanged and sends nothing |
| Chat.EnterSubmitsQuestion | brain-cli/chat.go:182-211 | Enter with a non-empty input appends one user message with it, clears the input, starts loading and sends the question; the error and all sizes are unchanged |
| Chat.AnswerAppendsAiMessage | brain-cli/chat.go:221-229 | an answer stops loading and appends exactly one AI message with its text |
| Chat.ErrorKeepsHistory | brain-cli/chat.go:231-235 | an error stops loading, records the error and leaves the history and input unchanged |
| Chat.Run | brain-cli/chat.go:145-245 | one command is produced per processed message |
| Chat.HistoryAppendOnly | brain-cli/chat.go:192-226 | over any sequence of messages the old history is a prefix of the new one |
| Chat.UpdateKeepsAwaitingAnswer | brain-cli/chat.go:182-235 | while loading, the newest message is the user's pending question, and every transition keeps that so |
| Chat.QuestionsMatchUserMessages | brain-cli/chat.go:182-235 | over any sequence of messages, the user messages added equal the questions sent to the API |
| Chat.HistoryWidth | brain-cli/chat.go:258-261 | the history text width is max(width-8, 20) |
| Chat.InputBoxWidth | brain-cli/chat.go:329-332 | the input box width is max(width-4, 20) |
| Chat.RenderWidthsMonotone | brain-cli/chat.go:258-332 | both widths grow with the window; the history is never wider than the input box, and strictly narrower beyond 24 cells |
| Chat.InputFieldWidthNotMonotone | brain-cli/chat.go:166-170 | the text input's width is not monotone: an 8-cell window gives 20, a 9-cell window gives 3 |

## Left out

- The `ask` question-answering chain (prompt, retriever with k = 4, Gemini call): remote model calls with no decision logic beyond the prompt text.
- Service initialisation (`onModuleInit`: API key check, model, embeddings, Chroma collection): configuration, not logic.
- The Portuguese message texts of the ingest reply: the reply is a variant carrying the path and the chunk count.
- ISO-8601 parsing and `toISOString`: times are integers in milliseconds. The millisecond truncation of the watcher's nanosecond times and invalid dates are not modelled.
- The text splitter's internals (`RecursiveCharacterTextSplitter`, 1000/100) and the `loc` metadata it adds: the splitter is an uninterpreted function parameter.
- Embedding, and the similarity ranking behind the probe: the probe is any matching entry, chosen by a parameter.
- Partial effects of a failing remote delete or add: a failing step is modelled as changing nothing.
- The BullMQ queue (job id dedup, retention, concurrency 1), the consumer's rethrow, NestJS controllers, DTO validation and bootstrap: library behaviour and wiring.
- Watcher I/O and concurrency: fsnotify, `filepath.Walk`, `filepath.Abs`, the goroutines and the event loop, the environment and `.env` loading, and the HTTP POST with its status handling. The mutex is modelled by making the cooldown check-and-record one step. `os.Stat`, `os.ReadFile` and `http.DetectContentType` are parameters.
- bufio.Scanner's line splitting: the configuration file arrives as its lines. On a scan error the partial path list Go returns alongside the error is dropped, because the caller stops.
- Strings and GoPath: Go strings are bytes and Linux paths need not be valid UTF-8, while the model works on Unicode scalar values; the two agree on valid UTF-8 because every marker the code looks for ('/', '.', '#', "~/", the blocklist and whitelist entries) is ASCII.
- Debounce.Debounce: `ingestFile` reads the clock twice, `time.Since` for the comparison (brain-watcher/main.go:277) and `time.Now` for the record (brain-watcher/main.go:282); the model uses one reading `now` for both.
- AiService.Ingest: each call is modelled as finishing before the next starts, as the queue worker (concurrency 1) runs them. The `/ai/ingest` endpoint (brain-api/src/ai/ai.controller.ts:10-14) calls `ingest` directly, so two calls can interleave at their awaits. For example, two calls can both probe an empty store, both delete and then both add, leaving entries at two times. `IngestPreservesUniformTimes`, `StoredTimeNeverDecreases` and `RunKeepsTimesMonotone` hold only for calls that do not overlap.
- ScanPaths.ParsedPathIsFixed: holds only for the `Join` without `filepath.Clean`. Go cleans "~/a /" to "/h/a " (home "/h"), which parses again to "/h/a", so with the cleaning the produced path is not always a fixed point.
- ScanPaths.ParseIdempotent: holds only for the `Join` without `filepath.Clean`, for the same reason; a config line "~/a /" breaks it under Go's cleaning.
- GoPath.Join: does not apply `filepath.Clean` to the result (duplicate or trailing separators and "." / ".." elements are kept), because path cleaning is lexical clean-up outside the modelled decisions.
- Chat rendering and transport: lipgloss/glamour styling, markdown rendering, the OSC escape strip, the spinner's frames, the viewport's scroll offset, and `askBrain`'s HTTP call. The text input's editing is reduced to the value it holds after a key (`KeyEdit`). Its focus is not modelled because it is always focused.
- brain-cli/main.go: program start-up only.

=== FILE: ai_service.dfy ===
/**
  The indexing side of the API's AI service (brain-api/src/ai/ai.service.ts):
  `ingest`, which re-indexes one file with a staleness guard and a
  delete-then-add replacement, and `formatDocumentsAsString`.

  The collaborators are parameters: the text splitter is a function from
  content to chunk texts, the one-result filtered similarity search is a
  choice among the entries of the file, and `fault` names the collaborator
  step that throws, if any.
 */
module AiService {
  import opened Maybe
  import opened VectorStore
  import Strings

  /** An ingest request; the ISO-8601 time is already milliseconds since the epoch. */
  datatype IngestRequest = IngestRequest(filePath: string, content: string, lastModified: int)

  /** The collaborator step that throws during an ingest, if any. */
  datatype Fault = NoFault | ProbeFault | DeleteFault | SplitFault | AddFault

  /** The reply of `ingest`: "already up to date", "re-indexed with n chunks", or the caught error. */
  datatype Response =
    | UpToDate(filePath: string)
    | Reindexed(filePath: string, chunkCount: nat)
    | Failed
  {
    function Status(): string {
      if Failed? then "error" else "ok"
    }
  }

  datatype IngestResult = IngestResult(response: Response, store: Store)

  /**
    The filtered similarity search with k = 1: one entry of the file when the
    store holds any (which one is up to the store, here `choice`), else none.
   */
  function Probe(store: Store, source: string, choice: nat): (r: Option<Entry>)
    ensures r.None? <==> EntriesFor(store, source) == []
    ensures r.Some? ==> r.value in store && r.value.source == source
  {
    var matching := EntriesFor(store, source);
    if |matching| == 0 then None
    else
      assert matching[choice % |matching|] in matching;
      Some(matching[choice % |matching|])
  }

  /** The staleness guard: the probed entry is at least as new as the request. */
  predicate ProbeSaysUpToDate(store: Store, req: IngestRequest, choice: nat) {
    var existing := Probe(store, req.filePath, choice);
    existing.Some? && existing.value.lastModified >= req.lastModified
  }

  /** The chunk entries an ingest of `req` adds. */
  function Chunks(req: IngestRequest, split: string -> seq<string>): seq<Entry> {
    Tag(split(req.content), req.filePath, req.lastModified)
  }

  /**
    `ingest`: probe; skip when the stored time is at least the request's;
    otherwise delete every entry of the file, split the content and add the
    tagged chunks. Whatever throws is caught and answered with an error, the
    store keeping whatever the steps before the throw did to it.
   */
  function Ingest(store: Store, req: IngestRequest, split: string -> seq<string>,
                  choice: nat, fault: Fault): (r: IngestResult)
    ensures forall other :: other != req.filePath ==> EntriesFor(r.store, other) == EntriesFor(store, other)
    ensures r.response.UpToDate? ==> r.response.filePath == req.filePath && r.store == store
    ensures r.response.Reindexed? ==>
              && r.response.filePath == req.filePath
              && EntriesFor(r.store, req.filePath) == Chunks(req, split)
              && r.response.chunkCount == |split(req.content)|
    ensures fault != ProbeFault ==> (r.response.UpToDate? <==> ProbeSaysUpToDate(store, req, choice))
    ensures r.response.Failed? <==>
              fault == ProbeFault || (fault != NoFault && !ProbeSaysUpToDate(store, req, choice))
    ensures r.response.Failed? ==> r.store == store || EntriesFor(r.store, req.filePath) == []
    ensures fault == ProbeFault || fault == DeleteFault ==> r.store == store
  {
    var path := req.filePath;
    if fault == ProbeFault then IngestResult(Failed, store)
    else if ProbeSaysUpToDate(store, req, choice) then IngestResult(UpToDate(path), store)
    else if fault == DeleteFault then IngestResult(Failed, store)
    else
      var cleared := DeleteSource(store, path);
      DeleteSourceEntries(store, path);
      if fault == SplitFault || fault == AddFault then IngestResult(Failed, cleared)
      else
        assert fault == NoFault;
        var chunks := Chunks(req, split);
        IngestResult(Reindexed(path, |chunks|), ReplaceSource(store, path, chunks))
  }

  /** A request no newer than the probed entry is answered "up to date" and changes nothing. */
  lemma StaleRequestSkipped(store: Store, req: IngestRequest, split: string -> seq<string>,
                            choice: nat, fault: Fault, stored: Entry)
    requires fault != ProbeFault
    requires Probe(store, req.filePath, choice) == Some(stored)
    requires stored.lastModified >= req.lastModified
    ensures Ingest(store, req, split, choice, fault) == IngestResult(UpToDate(req.filePath), store)
  {
  }

  /**
    While all entries of a file share one time, which entry the probe returns
    does not matter: the whole ingest is the same for every choice.
   */
  lemma ProbeChoiceIrrelevant(store: Store, req: IngestRequest, split: string -> seq<string>,
                              c1: nat, c2: nat, fault: Fault)
    requires UniformTimes(store)
    ensures Ingest(store, req, split, c1, fault) == Ingest(store, req, split, c2, fault)
  {
    var p1 := Probe(store, req.filePath, c1);
    var p2 := Probe(store, req.filePath, c2);
    if p1.Some? {
      assert p1.value.lastModified == p2.value.lastModified;
    }
    assert ProbeSaysUpToDate(store, req, c1) == ProbeSaysUpToDate(store, req, c2);
  }

  /**
    While all entries of a file share one time, an ingest that reaches the
    probe skips exactly when the stored time of the file is at least the
    request's time.
   */
  lemma SkipIffStoredIsAsNew(store: Store, req: IngestRequest, split: string -> seq<string>,
                             choice: nat, fault: Fault)
    requires UniformTimes(store) && fault != ProbeFault
    ensures Ingest(store, req, split, choice, fault).response.UpToDate? <==>
              StoredTime(store, req.filePath).Some? && StoredTime(store, req.filePath).value >= req.lastModified
  {
    var p := Probe(store, req.filePath, choice);
    if p.Some? {
      assert p.value.lastModified == StoredTime(store, req.filePath).value;
    }
  }

  /** A successful ingest of a file the store does not hold appends its chunks and nothing else. */
  lemma FirstIngestAppends(store: Store, req: IngestRequest, split: string -> seq<string>, choice: nat)
    requires EntriesFor(store, req.filePath) == []
    ensures Ingest(store, req, split, choice, NoFault)
            == IngestResult(Reindexed(req.filePath, |split(req.content)|), store + Chunks(req, split))
  {
    DeleteAbsentIsNoOp(store, req.filePath);
    assert !ProbeSaysUpToDate(store, req, choice);
    assert ReplaceSource(store, req.filePath, Chunks(req, split)) == store + Chunks(req, split);
  }

  /**
    The reported chunk count is the number of entries the ingest added. That
    they are the last entries is a property of the store as a sequence: the
    vector store itself keeps no order.
   */
  lemma ChunkCountIsAppendedCount(store: Store, req: IngestRequest, split: string -> seq<string>,
                                  choice: nat, fault: Fault)
    requires Ingest(store, req, split, choice, fault).response.Reindexed?
    ensures var r := Ingest(store, req, split, choice, fault);
            && |r.store| == |DeleteSource(store, req.filePath)| + r.response.chunkCount
            && r.store[|r.store| - r.response.chunkCount..] == Chunks(req, split)
  {
  }

  /**
    A failure after the delete (in the splitter or in the add) answers with an
    error and leaves the file with no entries at all, every other file intact.
   */
  lemma FailureAfterDeleteLeavesNoEntries(store: Store, req: IngestRequest, split: string -> seq<string>,
                                          choice: nat, fault: Fault)
    requires fault == SplitFault || fault == AddFault
    requires !ProbeSaysUpToDate(store, req, choice)
    ensures var r := Ingest(store, req, split, choice, fault);
            && r.response == Failed && r.response.Status() == "error"
            && r.store == DeleteSource(store, req.filePath)
            && EntriesFor(r.store, req.filePath) == []
  {
  }

  /** Every ingest, whatever its outcome, keeps all entries of one file on one time. */
  lemma {:induction false} IngestPreservesUniformTimes(store: Store, req: IngestRequest,
                                                      split: string -> seq<string>, choice: nat, fault: Fault)
    requires UniformTimes(store)
    ensures UniformTimes(Ingest(store, req, split, choice, fault).store)
  {
    var r := Ingest(store, req, split, choice, fault);
    if r.store != store {
      var cleared := DeleteSource(store, req.filePath);
      assert UniformTimes(cleared);
      if r.response.Reindexed? {
        var chunks := Chunks(req, split);
        assert r.store == cleared + chunks;
        forall e1, e2 | e1 in r.store && e2 in r.store && e1.source == e2.source
          ensures e1.lastModified == e2.lastModified
        {
          if e1 in chunks || e2 in chunks {
            assert e1 in chunks && e2 in chunks;
          }
        }
      }
    }
  }

  /**
    The stored time of a file never goes back: an ingest that keeps entries
    for a file that had some leaves them at a time no earlier than before.
   */
  lemma StoredTimeNeverDecreases(store: Store, req: IngestRequest, split: string -> seq<string>,
                                 choice: nat, fault: Fault, path: string)
    requires UniformTimes(store)
    requires StoredTime(store, path).Some?
    requires StoredTime(Ingest(store, req, split, choice, fault).store, path).Some?
    ensures StoredTime(Ingest(store, req, split, choice, fault).store, path).value >= StoredTime(store, path).value
  {
    var r := Ingest(store, req, split, choice, fault);
    if path == req.filePath && r.store != store {
      assert r.response.Reindexed?;
      var p := Probe(store, path, choice);
      assert p.value.lastModified == StoredTime(store, path).value;
      var e := EntriesFor(r.store, path)[0];
      assert e in Chunks(req, split);
    }
  }

  /**
    Re-ingesting the request that was just indexed is answered "up to date"
    and leaves the store alone, provided the splitter produced a chunk (and the
    probe does not throw).
   */
  lemma ReingestSkips(store: Store, req: IngestRequest, split: string -> seq<string>,
                      c1: nat, c2: nat, fault: Fault)
    requires Ingest(store, req, split, c1, NoFault).response.Reindexed?
    requires |split(req.content)| > 0
    requires fault != ProbeFault
    ensures var s1 := Ingest(store, req, split, c1, NoFault).store;
            Ingest(s1, req, split, c2, fault) == IngestResult(UpToDate(req.filePath), s1)
  {
    var s1 := Ingest(store, req, split, c1, NoFault).store;
    var p := Probe(s1, req.filePath, c2);
    assert p.value in Chunks(req, split);
  }

  /**
    When the splitter produces no chunk, the file has no entries afterwards, so
    the same request is indexed again instead of being skipped.
   */
  lemma NoChunksMeansNoSkip(store: Store, req: IngestRequest, split: string -> seq<string>, c1: nat, c2: nat)
    requires Ingest(store, req, split, c1, NoFault).response.Reindexed?
    requires |split(req.content)| == 0
    ensures var s1 := Ingest(store, req, split, c1, NoFault).store;
            Ingest(s1, req, split, c2, NoFault).response == Reindexed(req.filePath, 0)
  {
  }

  /** One call of `ingest` with its collaborators' behaviour. */
  datatype Call = Call(req: IngestRequest, choice: nat, fault: Fault)

  /** The store after a sequence of ingests, one at a time as the queue worker runs them. */
  function Run(store: Store, calls: seq<Call>, split: string -> seq<string>): Store
    decreases |calls|
  {
    if |calls| == 0 then store
    else Run(Ingest(store, calls[0].req, split, calls[0].choice, calls[0].fault).store, calls[1..], split)
  }

  /**
    The calls for `path` never fail between the delete and the add and always
    produce a chunk; calls for other files may do anything.
   */
  predicate NoGap(calls: seq<Call>, split: string -> seq<string>, path: string) {
    forall i :: 0 <= i < |calls| && calls[i].req.filePath == path ==>
      calls[i].fault != SplitFault && calls[i].fault != AddFault && |split(calls[i].req.content)| > 0
  }

  /**
    Along any run of ingests from a store whose files each carry one time,
    the files keep one time each; and when no call for `path` fails between
    delete and add or yields zero chunks, `path` once indexed stays indexed at
    a time no earlier than before.
   */
  lemma {:induction false} RunKeepsTimesMonotone(store: Store, calls: seq<Call>,
                                                 split: string -> seq<string>, path: string)
    requires UniformTimes(store)
    ensures UniformTimes(Run(store, calls, split))
    ensures NoGap(calls, split, path) && StoredTime(store, path).Some? ==>
              StoredTime(Run(store, calls, split), path).Some? &&
              StoredTime(Run(store, calls, split), path).value >= StoredTime(store, path).value
    decreases |calls|
  {
    if |calls| > 0 {
      var c := calls[0];
      var r := Ingest(store, c.req, split, c.choice, c.fault);
      IngestPreservesUniformTimes(store, c.req, split, c.choice, c.fault);
      assert forall i :: 1 <= i < |calls| ==> calls[1..][i - 1] == calls[i];
      RunKeepsTimesMonotone(r.store, calls[1..], split, path);
      if NoGap(calls, split, path) && StoredTime(store, path).Some? {
        assert NoGap(calls[1..], split, path);
        assert StoredTime(r.store, path).Some? by {
          if path != c.req.filePath {
            assert EntriesFor(r.store, path) == EntriesFor(store, path);
          } else if r.response.Reindexed? {
            assert |EntriesFor(r.store, path)| > 0;
          }
        }
        StoredTimeNeverDecreases(store, c.req, split, c.choice, c.fault, path);
      }
    }
  }

  /** A splitter that keeps the whole content as one chunk. */
  function WholeContent(content: string): seq<string> {
    [content]
  }

  /**
    The delete-then-add replacement is not atomic: when the splitter throws
    after the delete, the file has no entries, and a later request carrying an
    OLDER time is then indexed, so the stored time goes back.
   */
  lemma DeleteGapAdmitsOlderVersion()
    ensures var store := [Entry("v2", "/notes/a.md", 2000)];
            var failed := Ingest(store, IngestRequest("/notes/a.md", "v3", 3000), WholeContent, 0, SplitFault);
            var older := Ingest(failed.store, IngestRequest("/notes/a.md", "v1", 1000), WholeContent, 0, NoFault);
            && failed.response == Failed
            && older.response == Reindexed("/notes/a.md", 1)
            && StoredTime(older.store, "/notes/a.md") == Some(1000)
  {
    var store := [Entry("v2", "/notes/a.md", 2000)];
    var failed := Ingest(store, IngestRequest("/notes/a.md", "v3", 3000), WholeContent, 0, SplitFault);
    assert EntriesFor(store, "/notes/a.md") == store;
    assert failed.store == [];
    var older := Ingest(failed.store, IngestRequest("/notes/a.md", "v1", 1000), WholeContent, 0, NoFault);
    assert older.store == [Entry("v1", "/notes/a.md", 1000)];
    assert EntriesFor(older.store, "/notes/a.md") == older.store;
  }

  /**
    Example, an instance of FirstIngestAppends and StaleRequestSkipped: a new
    file indexed with one chunk, then offered again with an earlier time (one
    day earlier, in milliseconds), is skipped with the store unchanged.
   */
  lemma IndexThenOlderIsSkipped(split: string -> seq<string>, choice: nat)
    requires |split("# Title\nSome text.")| == 1
    ensures var first := Ingest([], IngestRequest("/notes/a.md", "# Title\nSome text.", 1704067200000), split, 0, NoFault);
            var second := Ingest(first.store, IngestRequest("/notes/a.md", "# Title\nSome text.", 1703980800000), split, choice, NoFault);
            && first.response == Reindexed("/notes/a.md", 1)
            && second.response == UpToDate("/notes/a.md")
            && second.store == first.store
  {
    var req := IngestRequest("/notes/a.md", "# Title\nSome text.", 1704067200000);
    var first := Ingest([], req, split, 0, NoFault);
    FirstIngestAppends([], req, split, 0);
    assert first.store == Chunks(req, split);
    EntriesForSingleSource(Chunks(req, split), req.filePath);
    var p := Probe(first.store, "/notes/a.md", choice);
    assert p.value in first.store;
  }

  /** The page texts of retrieved documents, in order. */
  function PageContents(docs: seq<Entry>): (r: seq<string>)
    ensures |r| == |docs|
  {
    seq(|docs|, i requires 0 <= i < |docs| => docs[i].text)
  }

  /**
    `formatDocumentsAsString`: the page texts in order, separated by one blank
    line ("\n\n"); no documents give the empty string.
   */
  function FormatDocuments(docs: seq<Entry>): (r: string)
    ensures |docs| == 0 ==> r == ""
    ensures |docs| == 1 ==> r == docs[0].text
    ensures |docs| > 0 ==> Strings.HasPrefix(r, docs[0].text)
    ensures |docs| > 0 ==> |r| == Strings.TotalLength(PageContents(docs)) + 2 * (|docs| - 1)
  {
    Strings.Join(PageContents(docs), "\n\n")
  }

  /**
    Between any two consecutive documents there is exactly the blank-line
    separator: the formatted text splits at document `i` into the formatting
    of the documents before it, "\n\n", and the formatting of the rest, which
    begins with document `i`'s text.
   */
  lemma FormatSplitsBetweenDocuments(docs: seq<Entry>, i: nat)
    requires 0 < i < |docs|
    ensures FormatDocuments(docs) == FormatDocuments(docs[..i]) + "\n\n" + FormatDocuments(docs[i..])
    ensures Strings.HasPrefix(FormatDocuments(docs[i..]), docs[i].text)
  {
    var pages := PageContents(docs);
    Strings.JoinSplitsAt(pages, "\n\n", i);
    assert pages[..i] == PageContents(docs[..i]);
    assert pages[i..] == PageContents(docs[i..]);
  }
}

=== FILE: chat.dfy ===
/**
  The state machine of the terminal chat client (brain-cli/chat.go): the
  fields `model.Update` changes and the widths `renderHistory` and `View`
  compute. Drawing, styling and the HTTP request are not modelled; the
  request appears only as the command `Update` returns.
 */
module Chat {
  import opened Maybe

  datatype Role = User | Ai

  datatype Message = Message(role: Role, content: string)

  /**
    The fields of the chat model that `Update` reads or writes: the history,
    the loading flag, the last error, the text input's value, the window size,
    the viewport's size and the text input's width.
   */
  datatype Model = Model(
    messages: seq<Message>,
    isLoading: bool,
    err: Option<string>,
    input: string,
    width: int,
    height: int,
    viewportWidth: int,
    viewportHeight: int,
    inputWidth: int)

  /** Rows kept for the header above the viewport and the input box below it. */
  const HeaderHeight: int := 2
  const InputHeight: int := 3

  /** Viewport height when the window is too short to leave room for header and input. */
  const MinViewportHeight: int := 10
  /** Text input width when the window is too narrow to leave room for the borders. */
  const MinInputWidth: int := 20
  /** Smallest width `renderHistory` and `View` lay text out in. */
  const MinRenderWidth: int := 20

  /** `initialModel`: an 80x24 window, an 80x20 viewport, an empty history and input. */
  function InitialModel(): (r: Model)
    ensures r.messages == [] && !r.isLoading && r.err == None && r.input == ""
    ensures AwaitingAnswer(r)
  {
    Model([], false, None, "", 80, 24, 80, 20, 0)
  }

  /** The messages `Update` distinguishes. */
  datatype Msg =
    | WindowSize(w: int, h: int)
    | KeyExitAltScreen       // Ctrl+C or Esc: leaves the alternate screen, the program keeps running
    | KeyEnter
    | KeyScroll              // arrow up or down
    | KeyEdit(value: string) // any other key, with the value the text input holds after it
    | AiResponse(answer: string)
    | ErrorMsg(error: string)
    | SpinnerTick
    | Other

  /** The command `Update` returns. */
  datatype Cmd =
    | NoCmd
    | ExitAltScreen
    | AskBrain(query: string) // with the spinner tick, as one batch
    | Delegated               // whatever the spinner or the text input returned

  datatype Transition = Transition(model: Model, cmd: Cmd)

  predicate IsPrefix<T(==)>(a: seq<T>, b: seq<T>) {
    |a| <= |b| && b[..|a|] == a
  }

  /** The layout a window of `w` by `h` cells gets. */
  function Resize(m: Model, w: int, h: int): (r: Model)
    ensures r.viewportWidth == w
    ensures h > HeaderHeight + InputHeight ==> r.viewportHeight == h - 5
    ensures h <= HeaderHeight + InputHeight ==> r.viewportHeight == MinViewportHeight
    ensures w > 8 ==> r.inputWidth == w - 6
    ensures w <= 8 ==> r.inputWidth == MinInputWidth
    ensures r.width == w && r.height == h
    ensures r.messages == m.messages && r.isLoading == m.isLoading && r.err == m.err && r.input == m.input
  {
    m.(width := w, height := h,
       viewportWidth := w,
       viewportHeight := if h > HeaderHeight + InputHeight then h - HeaderHeight - InputHeight else MinViewportHeight,
       inputWidth := if w > 8 then w - 6 else MinInputWidth)
  }

  /** `model.Update`, restricted to the modelled fields. */
  function Update(m: Model, msg: Msg): (t: Transition)
    ensures IsPrefix(m.messages, t.model.messages)
    ensures |t.model.messages| <= |m.messages| + 1
    ensures t.cmd.AskBrain? ==> !m.isLoading && t.model.isLoading
  {
    match msg
    case WindowSize(w, h) => Transition(Resize(m, w, h), NoCmd)
    case KeyExitAltScreen => Transition(m, ExitAltScreen)
    case KeyEnter =>
      if m.isLoading then Transition(m, NoCmd)
      else
        var query := m.input;
        if query == "" then Transition(m, NoCmd)
        else
          Transition(m.(messages := m.messages + [Message(User, query)], input := "", isLoading := true),
                     AskBrain(query))
    case KeyScroll => Transition(m, Delegated)
    case KeyEdit(value) => Transition(m.(input := value), Delegated)
    case AiResponse(answer) =>
      Transition(m.(isLoading := false, messages := m.messages + [Message(Ai, answer)]), NoCmd)
    case ErrorMsg(e) => Transition(m.(isLoading := false, err := Some(e)), NoCmd)
    case SpinnerTick => Transition(m, Delegated)
    case Other => Transition(m, Delegated)
  }

  /** Enter while a question is pending, or with nothing typed, changes nothing and sends nothing. */
  lemma EnterIgnoredWhileLoadingOrEmpty(m: Model)
    requires m.isLoading || m.input == ""
    ensures Update(m, KeyEnter) == Transition(m, NoCmd)
  {
  }

  /**
    Enter with a typed question appends exactly that question as a user
    message, clears the input, starts loading and asks the API; nothing else
    changes.
   */
  lemma EnterSubmitsQuestion(m: Model)
    requires !m.isLoading && m.input != ""
    ensures var t := Update(m, KeyEnter);
            && t.model.messages == m.messages + [Message(User, m.input)]
            && t.model.isLoading && t.model.input == ""
            && t.cmd == AskBrain(m.input)
            && t.model.err == m.err && t.model.width == m.width && t.model.height == m.height
            && t.model.viewportWidth == m.viewportWidth && t.model.viewportHeight == m.viewportHeight
            && t.model.inputWidth == m.inputWidth
  {
  }

  /** An answer stops loading and appends exactly one AI message with its text. */
  lemma AnswerAppendsAiMessage(m: Model, answer: string)
    ensures var t := Update(m, AiResponse(answer));
            && !t.model.isLoading
            && t.model.messages == m.messages + [Message(Ai, answer)]
            && t.model.err == m.err && t.model.input == m.input
  {
  }

  /** An error stops loading and records the error; the history is untouched. */
  lemma ErrorKeepsHistory(m: Model, e: string)
    ensures var t := Update(m, ErrorMsg(e));
            && !t.model.isLoading && t.model.err == Some(e)
            && t.model.messages == m.messages && t.model.input == m.input
  {
  }

  /** The state after a sequence of messages, and the commands issued on the way. */
  function Run(m: Model, msgs: seq<Msg>): (t: (Model, seq<Cmd>))
    ensures |t.1| == |msgs|
    decreases |msgs|
  {
    if |msgs| == 0 then (m, [])
    else
      var step := Update(m, msgs[0]);
      var rest := Run(step.model, msgs[1..]);
      (rest.0, [step.cmd] + rest.1)
  }

  /** The history is append-only: over any sequence of messages the old history is a prefix of the new. */
  lemma {:induction false} HistoryAppendOnly(m: Model, msgs: seq<Msg>)
    ensures IsPrefix(m.messages, Run(m, msgs).0.messages)
    decreases |msgs|
  {
    if |msgs| > 0 {
      var step := Update(m, msgs[0]);
      HistoryAppendOnly(step.model, msgs[1..]);
    }
  }

  /** While loading, the newest message is the user's pending question. */
  predicate AwaitingAnswer(m: Model) {
    m.isLoading ==> |m.messages| > 0 && m.messages[|m.messages| - 1].role == User
  }

  /** Every message keeps the loading flag honest. */
  lemma UpdateKeepsAwaitingAnswer(m: Model, msg: Msg)
    requires AwaitingAnswer(m)
    ensures AwaitingAnswer(Update(m, msg).model)
  {
  }

  /** Number of user messages in a history. */
  function UserCount(messages: seq<Message>): nat {
    if |messages| == 0 then 0
    else (if messages[|messages| - 1].role == User then 1 else 0) + UserCount(messages[..|messages| - 1])
  }

  /** Number of questions sent to the API in a sequence of commands. */
  function AskCount(cmds: seq<Cmd>): nat {
    if |cmds| == 0 then 0
    else (if cmds[0].AskBrain? then 1 else 0) + AskCount(cmds[1..])
  }

  /**
    Over any sequence of messages, from a state where the newest message is
    the pending question whenever one is pending, that stays so; and exactly
    one user message is added for every question sent to the API.
   */
  lemma {:induction false} QuestionsMatchUserMessages(m: Model, msgs: seq<Msg>)
    requires AwaitingAnswer(m)
    ensures AwaitingAnswer(Run(m, msgs).0)
    ensures UserCount(Run(m, msgs).0.messages) == UserCount(m.messages) + AskCount(Run(m, msgs).1)
    decreases |msgs|
  {
    if |msgs| > 0 {
      var step := Update(m, msgs[0]);
      UpdateKeepsAwaitingAnswer(m, msgs[0]);
      QuestionsMatchUserMessages(step.model, msgs[1..]);
      var rest := Run(step.model, msgs[1..]);
      assert Run(m, msgs).1 == [step.cmd] + rest.1;
      assert ([step.cmd] + rest.1)[1..] == rest.1;
      var before := m.messages;
      var after := step.model.messages;
      if after != before {
        assert after[..|after| - 1] == before;
      }
    }
  }

  /** Width of the text in the history: the window width less 8, but at least 20. */
  function HistoryWidth(width: int): (r: int)
    ensures r >= MinRenderWidth && r >= width - 8
    ensures r == MinRenderWidth || r == width - 8
  {
    if width - 8 < MinRenderWidth then MinRenderWidth else width - 8
  }

  /** Width of the input box in `View`: the window width less 4, but at least 20. */
  function InputBoxWidth(width: int): (r: int)
    ensures r >= MinRenderWidth && r >= width - 4
    ensures r == MinRenderWidth || r == width - 4
  {
    if width - 4 < MinRenderWidth then MinRenderWidth else width - 4
  }

  /**
    Both rendering widths grow with the window; the history is never wider
    than the input box, and strictly narrower once the window exceeds 24 cells.
   */
  lemma RenderWidthsMonotone(w1: int, w2: int)
    requires w1 <= w2
    ensures HistoryWidth(w1) <= HistoryWidth(w2)
    ensures InputBoxWidth(w1) <= InputBoxWidth(w2)
    ensures HistoryWidth(w2) <= InputBoxWidth(w2)
    ensures w2 > 24 ==> HistoryWidth(w2) < InputBoxWidth(w2)
  {
  }

  /**
    The text input's own width, set on a resize, is not monotone in the window
    width: a 9-cell window gives it 3 cells while an 8-cell window gives 20.
   */
  lemma InputFieldWidthNotMonotone(m: Model)
    ensures Update(m, WindowSize(8, 24)).model.inputWidth == 20
    ensures Update(m, WindowSize(9, 24)).model.inputWidth == 3
  {
  }
}

=== FILE: debounce.dfy ===
/**
  The per-path cooldown and the content gates of the watcher's `ingestFile`
  (brain-watcher/main.go). The lock around the cooldown map is modelled by
  making the check-and-record one step; the clock, `os.Stat`, `os.ReadFile`
  and MIME sniffing are parameters.
 */
module Debounce {
  import opened Maybe
  import opened Strings

  /** Go's time.Duration unit: nanoseconds. */
  const Second: int := 1_000_000_000

  /** Minimum spacing between two accepted calls for one path. */
  const Cooldown: int := 10 * Second

  /** Largest file the watcher sends: 25 MiB. */
  const MaxSize: int := 25 * 1024 * 1024

  /** Time of the last accepted call, per path. */
  type LastIngest = map<string, int>

  datatype Decision = Decision(accepted: bool, last: LastIngest)

  /**
    The cooldown check: a call within `Cooldown` of the last accepted call for
    the same path is dropped; any other call is accepted and records `now` as
    that path's time, leaving every other path's entry as it was.
   */
  function Debounce(last: LastIngest, path: string, now: int): (d: Decision)
    ensures !d.accepted <==> path in last && now - last[path] < Cooldown
    ensures !d.accepted ==> d.last == last
    ensures d.accepted ==> path in d.last && d.last[path] == now
    ensures d.last.Keys == last.Keys + {path}
    ensures forall p :: p in last && p != path ==> d.last[p] == last[p]
  {
    if path in last && now - last[path] < Cooldown then
      Decision(false, last)
    else
      Decision(true, last[path := now])
  }

  /** One call of `ingestFile`: the path and the clock reading it takes. */
  datatype Call = Call(path: string, now: int)

  predicate NonDecreasing(calls: seq<Call>) {
    forall i, j :: 0 <= i < j < |calls| ==> calls[i].now <= calls[j].now
  }

  /** Which of a sequence of calls the cooldown accepts, starting from `last`. */
  function Accepted(last: LastIngest, calls: seq<Call>): (r: seq<bool>)
    ensures |r| == |calls|
    decreases |calls|
  {
    if |calls| == 0 then []
    else
      var d := Debounce(last, calls[0].path, calls[0].now);
      [d.accepted] + Accepted(d.last, calls[1..])
  }

  /**
    While the clock does not go back and the recorded time of `path` is not
    later than any pending call, an accepted call for `path` comes at least
    `Cooldown` after that recorded time.
   */
  lemma {:induction false} AcceptedAfterRecorded(last: LastIngest, calls: seq<Call>, path: string, j: nat)
    requires NonDecreasing(calls)
    requires path in last
    requires forall k :: 0 <= k < |calls| ==> last[path] <= calls[k].now
    requires j < |calls| && calls[j].path == path && Accepted(last, calls)[j]
    ensures calls[j].now - last[path] >= Cooldown
    decreases j
  {
    var d := Debounce(last, calls[0].path, calls[0].now);
    if j > 0 {
      assert Accepted(last, calls)[j] == Accepted(d.last, calls[1..])[j - 1];
      assert last[path] <= d.last[path];
      assert forall k :: 0 <= k < |calls[1..]| ==> calls[1..][k] == calls[k + 1];
      AcceptedAfterRecorded(d.last, calls[1..], path, j - 1);
    }
  }

  /**
    With a clock that never goes back, two accepted calls for the same path
    are at least `Cooldown` apart.
   */
  lemma {:induction false} AcceptedCallsSpaced(last: LastIngest, calls: seq<Call>, i: nat, j: nat)
    requires NonDecreasing(calls)
    requires i < j < |calls| && calls[i].path == calls[j].path
    requires Accepted(last, calls)[i] && Accepted(last, calls)[j]
    ensures calls[j].now - calls[i].now >= Cooldown
    decreases i
  {
    var d := Debounce(last, calls[0].path, calls[0].now);
    var tail := calls[1..];
    assert forall k :: 0 <= k < |tail| ==> tail[k] == calls[k + 1];
    assert Accepted(last, calls)[j] == Accepted(d.last, tail)[j - 1];
    if i == 0 {
      AcceptedAfterRecorded(d.last, tail, calls[0].path, j - 1);
    } else {
      assert Accepted(last, calls)[i] == Accepted(d.last, tail)[i - 1];
      AcceptedCallsSpaced(d.last, tail, i - 1, j - 1);
    }
  }

  /** What `os.Stat` reports that the gates use. */
  datatype FileInfo = FileInfo(size: int, modTime: int)

  type Byte = b: int | 0 <= b < 256

  /** The body of the POST to the API. */
  datatype IngestPayload = IngestPayload(filePath: string, content: seq<Byte>, lastModified: int)

  /** Why `ingestFile` stopped, or the payload it sends. */
  datatype Outcome =
    | Debounced
    | StatFailed
    | TooLarge
    | ReadFailed
    | EmptyFile
    | NotText(mimeType: string)
    | Send(payload: IngestPayload)

  datatype Step = Step(outcome: Outcome, last: LastIngest)

  /**
    `ingestFile` up to the POST: the cooldown, then the size gate on the stat
    result, the read, the emptiness gate and the text MIME gate. The time is
    recorded as soon as the cooldown accepts, whatever the later gates decide.
   */
  function IngestFile(last: LastIngest, path: string, now: int,
                      stat: Option<FileInfo>, read: Option<seq<Byte>>,
                      sniff: seq<Byte> -> string): (s: Step)
    ensures s.last == Debounce(last, path, now).last
    ensures s.outcome.Debounced? <==> !Debounce(last, path, now).accepted
    ensures !s.outcome.Debounced? && stat.Some? ==> (s.outcome.TooLarge? <==> stat.value.size > MaxSize)
    ensures s.outcome.StatFailed? <==> Debounce(last, path, now).accepted && stat.None?
    ensures s.outcome.ReadFailed? <==>
              Debounce(last, path, now).accepted && stat.Some? && stat.value.size <= MaxSize && read.None?
    ensures s.outcome.EmptyFile? <==>
              Debounce(last, path, now).accepted && stat.Some? && stat.value.size <= MaxSize && read == Some([])
    ensures Debounce(last, path, now).accepted && stat.Some? && stat.value.size <= MaxSize
            && read.Some? && |read.value| > 0 ==>
              if HasPrefix(sniff(read.value), "text/")
              then s.outcome == Send(IngestPayload(path, read.value, stat.value.modTime))
              else s.outcome == NotText(sniff(read.value))
    ensures s.outcome.Send? ==>
              && stat.Some? && stat.value.size <= MaxSize
              && read.Some? && |read.value| > 0
              && HasPrefix(sniff(read.value), "text/")
              && s.outcome.payload == IngestPayload(path, read.value, stat.value.modTime)
  {
    var d := Debounce(last, path, now);
    if !d.accepted then Step(Debounced, d.last)
    else
      var outcome :=
        match stat
        case None => StatFailed
        case Some(info) =>
          if info.size > MaxSize then TooLarge
          else
            match read
            case None => ReadFailed
            case Some(content) =>
              if |content| == 0 then EmptyFile
              else
                var mimeType := sniff(content);
                if !HasPrefix(mimeType, "text/") then NotText(mimeType)
                else Send(IngestPayload(path, content, info.modTime));
      Step(outcome, d.last)
  }

  /** A text file of exactly `MaxSize` bytes per stat is still sent. */
  lemma SizeLimitIsInclusive(last: LastIngest, path: string, now: int, modTime: int,
                             content: seq<Byte>, sniff: seq<Byte> -> string)
    requires path !in last
    requires |content| > 0 && HasPrefix(sniff(content), "text/")
    ensures IngestFile(last, path, now, Some(FileInfo(MaxSize, modTime)), Some(content), sniff).outcome
            == Send(IngestPayload(path, content, modTime))
  {
  }

  /**
    An attempt that the emptiness gate rejects still starts the cooldown: a
    file created empty and written within `Cooldown` is not sent on the write.
   */
  lemma EmptyAttemptSuppressesFollowingWrite(last: LastIngest, path: string, t0: int, t1: int,
                                             info0: FileInfo, stat1: Option<FileInfo>,
                                             read1: Option<seq<Byte>>, sniff: seq<Byte> -> string)
    requires info0.size <= MaxSize
    requires IngestFile(last, path, t0, Some(info0), Some([]), sniff).outcome == EmptyFile
    requires t0 <= t1 < t0 + Cooldown
    ensures IngestFile(IngestFile(last, path, t0, Some(info0), Some([]), sniff).last,
                       path, t1, stat1, read1, sniff).outcome == Debounced
  {
  }
}

=== FILE: gopath.dfy ===
/**
  The three functions of Go's `path/filepath` package the watcher relies on,
  for a Unix host: the separator is '/', there are no volume names.
 */
module GoPath {
  import opened Strings

  const Separator: char := '/'

  predicate AllSlash(s: string) {
    forall i :: 0 <= i < |s| ==> s[i] == Separator
  }

  /** `p` without its trailing separators. */
  function StripTrailingSeparators(p: string): (r: string)
    ensures HasPrefix(p, r)
    ensures AllSlash(p[|r|..])
    ensures |r| > 0 ==> r[|r| - 1] != Separator
    decreases |p|
  {
    if |p| > 0 && p[|p| - 1] == Separator then
      var r := StripTrailingSeparators(p[..|p| - 1]);
      assert p[|r|..] == p[..|p| - 1][|r|..] + [Separator];
      r
    else
      p
  }

  /** The part of `p` after its last separator (all of `p` when it has none). */
  function LastElement(p: string): (r: string)
    ensures HasSuffix(p, r)
    ensures Separator !in r
    ensures |r| < |p| ==> p[|p| - |r| - 1] == Separator
    ensures |p| > 0 && p[|p| - 1] != Separator ==> |r| > 0
    decreases |p|
  {
    if |p| == 0 || p[|p| - 1] == Separator then
      ""
    else
      var r := LastElement(p[..|p| - 1]);
      assert p[..|p| - 1][|p| - 1 - |r|..] == p[|p| - 1 - |r|..|p| - 1];
      r + [p[|p| - 1]]
  }

  /**
    `filepath.Base`: the last element of `path` once trailing separators are
    removed; "." for the empty path and "/" for a path made only of separators.
   */
  function Base(path: string): (r: string)
    ensures r != ""
    ensures r == [Separator] || Separator !in r
    ensures path == "" ==> r == "."
    ensures path != "" && AllSlash(path) ==> r == [Separator]
    ensures path != "" && path[|path| - 1] != Separator ==>
              HasSuffix(path, r) && (|r| == |path| || path[|path| - |r| - 1] == Separator)
    ensures path != "" && !AllSlash(path) ==>
              var s := StripTrailingSeparators(path);
              HasSuffix(s, r) && (|r| == |s| || s[|s| - |r| - 1] == Separator)
  {
    if path == "" then "."
    else
      var stripped := StripTrailingSeparators(path);
      var last := LastElement(stripped);
      if last == "" then
        assert path[|stripped|..] == path;
        [Separator]
      else
        last
  }

  /**
    `filepath.Ext`: the suffix of `path` that starts at the last '.' of its final
    element, or "" when the final element holds no '.'.
   */
  function Ext(path: string): (r: string)
    ensures r == "" || (r[0] == '.' && HasSuffix(path, r) && Separator !in r && '.' !in r[1..])
    decreases |path|
  {
    if |path| == 0 || path[|path| - 1] == Separator then
      ""
    else if path[|path| - 1] == '.' then
      assert path[|path| - 1..] == ".";
      "."
    else
      var c := path[|path| - 1];
      var init := path[..|path| - 1];
      var e := Ext(init);
      if e == "" then
        ""
      else
        assert init[|init| - |e|..] + [c] == path[|path| - |e| - 1..];
        assert (e + [c])[1..] == e[1..] + [c];
        e + [c]
  }

  /** Every '.' of `path` lies in a directory element: a separator follows it. */
  predicate DotsOnlyInDirectories(path: string) {
    forall i :: 0 <= i < |path| && path[i] == '.' ==> Separator in path[i..]
  }

  /** A path has no extension exactly when its final element holds no '.'. */
  lemma {:induction false} ExtEmptyIff(path: string)
    ensures Ext(path) == "" <==> DotsOnlyInDirectories(path)
    decreases |path|
  {
    if |path| == 0 || path[|path| - 1] == Separator {
      assert forall i :: 0 <= i < |path| ==> path[|path| - 1] in path[i..];
    } else if path[|path| - 1] == '.' {
      assert path[|path| - 1..] == ".";
    } else {
      var c := path[|path| - 1];
      var init := path[..|path| - 1];
      ExtEmptyIff(init);
      assert forall i :: 0 <= i < |init| ==> path[i..] == init[i..] + [c];
    }
  }

  /**
    `filepath.Join` of two elements, without the lexical clean-up the library
    applies afterwards: empty elements are ignored and the rest are joined with
    one separator.
   */
  function Join(dir: string, name: string): (r: string)
    ensures r == "" <==> dir == "" && name == ""
    ensures HasPrefix(r, dir) && HasSuffix(r, name)
    ensures dir == "" ==> r == name
    ensures name == "" ==> r == dir
    ensures dir != "" && name != "" ==> |r| == |dir| + 1 + |name| && r[|dir|] == Separator
  {
    if dir == "" then name
    else if name == "" then dir
    else dir + [Separator] + name
  }
}

=== FILE: maybe.dfy ===
/** Optional values, used wherever the source has a "found / not found" answer. */
module Maybe {
  datatype Option<+T> = None | Some(value: T)
}

=== FILE: scan_paths.dfy ===
/**
  The line handling of the watcher's configuration loader
  (brain-watcher/main.go, `loadPathsToScan`): each line is trimmed, blank and
  '#' lines are dropped, and a leading "~/" is expanded against the home
  directory. Opening and scanning the file is a parameter.
 */
module ScanPaths {
  import opened Strings
  import opened Maybe
  import GoPath

  /** Replaces a leading "~/" by the home directory. */
  function ExpandHome(home: string, p: string): (r: string)
    ensures !HasPrefix(p, "~/") ==> r == p
    ensures HasPrefix(p, "~/") ==> HasPrefix(r, home) && HasSuffix(r, p[2..])
    ensures HasPrefix(p, "~/") && home != "" && |p| > 2 ==> r == home + "/" + p[2..]
  {
    if HasPrefix(p, "~/") then GoPath.Join(home, p[2..]) else p
  }

  /** A configuration line that names a path: not blank and not a comment once trimmed. */
  predicate Kept(line: string) {
    var t := TrimSpace(line);
    t != "" && !HasPrefix(t, "#")
  }

  /** The path one configuration line contributes, if any. */
  function ParseLine(home: string, line: string): (r: Option<string>)
    ensures r.None? <==> !Kept(line)
    ensures r.Some? && !HasPrefix(TrimSpace(line), "~/") ==> r.value == TrimSpace(line)
    ensures r.Some? && HasPrefix(TrimSpace(line), "~/") ==>
              r.value == GoPath.Join(home, TrimSpace(line)[2..])
  {
    var t := TrimSpace(line);
    if t != "" && !HasPrefix(t, "#") then Some(ExpandHome(home, t)) else None
  }

  /** The paths of the configuration lines, in line order. */
  function ParseScanPaths(home: string, lines: seq<string>): (r: seq<string>)
    ensures |r| <= |lines|
  {
    if |lines| == 0 then []
    else
      var rest := ParseScanPaths(home, lines[1..]);
      match ParseLine(home, lines[0])
      case Some(p) => [p] + rest
      case None => rest
  }

  /** Every line yields a path exactly when no line is blank or a comment. */
  lemma {:induction false} NothingDroppedIffAllKept(home: string, lines: seq<string>)
    ensures |ParseScanPaths(home, lines)| == |lines| <==> forall i :: 0 <= i < |lines| ==> Kept(lines[i])
    decreases |lines|
  {
    if |lines| > 0 {
      NothingDroppedIffAllKept(home, lines[1..]);
      assert forall i :: 1 <= i < |lines| ==> lines[i] == lines[1..][i - 1];
    }
  }

  /** Parsing is line by line: the paths of two runs of lines are the paths of each, in order. */
  lemma {:induction false} ParseConcat(home: string, a: seq<string>, b: seq<string>)
    ensures ParseScanPaths(home, a + b) == ParseScanPaths(home, a) + ParseScanPaths(home, b)
    decreases |a|
  {
    if |a| == 0 {
      assert a + b == b;
    } else {
      assert (a + b)[0] == a[0];
      assert (a + b)[1..] == a[1..] + b;
      ParseConcat(home, a[1..], b);
    }
  }

  /** A blank or comment line contributes nothing wherever it stands. */
  lemma DroppedLineContributesNothing(home: string, before: seq<string>, line: string, after: seq<string>)
    requires !Kept(line)
    ensures ParseScanPaths(home, before + [line] + after) == ParseScanPaths(home, before + after)
  {
    var none := ParseScanPaths(home, [line]);
    assert none == [] by {
      assert [line][1..] == [];
      assert ParseLine(home, line).None?;
    }
    ParseConcat(home, before + [line], after);
    ParseConcat(home, before, [line]);
    ParseConcat(home, before, after);
    assert ParseScanPaths(home, before + [line]) == ParseScanPaths(home, before) + none;
    assert ParseScanPaths(home, before) + none == ParseScanPaths(home, before);
  }

  /** A kept line contributes exactly its own path, at its own position. */
  lemma KeptLineContributesItsPath(home: string, before: seq<string>, line: string, after: seq<string>)
    requires Kept(line)
    ensures ParseScanPaths(home, before + [line] + after)
            == ParseScanPaths(home, before) + [ParseLine(home, line).value] + ParseScanPaths(home, after)
  {
    assert ParseScanPaths(home, [line]) == [ParseLine(home, line).value] by {
      assert [line][1..] == [];
      assert ParseLine(home, line).Some?;
    }
    ParseConcat(home, before + [line], after);
    ParseConcat(home, before, [line]);
  }

  /** A string with no white space at either end is its own trimmed form. */
  lemma TrimSpaceOfTrimmed(s: string)
    requires |s| > 0 ==> !IsSpace(s[0]) && !IsSpace(s[|s| - 1])
    ensures TrimSpace(s) == s
  {
  }

  /**
    With an absolute, trimmed home directory, the path a kept line produces is
    itself a kept line that produces the same path.
   */
  lemma ParsedPathIsFixed(home: string, line: string)
    requires HasPrefix(home, "/") && !IsSpace(home[|home| - 1])
    requires Kept(line)
    ensures ParseLine(home, ParseLine(home, line).value) == ParseLine(home, line)
  {
    var t := TrimSpace(line);
    var p := ParseLine(home, line).value;
    if HasPrefix(t, "~/") {
      var tail := t[2..];
      assert p == GoPath.Join(home, tail);
      assert HasPrefix(p, home);
      assert p[0] == '/';
      assert !IsSpace(p[|p| - 1]) by {
        if tail != "" {
          assert HasSuffix(p, tail);
          assert p[|p| - 1] == t[|t| - 1];
        }
      }
      assert !HasPrefix(p, "~/") && !HasPrefix(p, "#");
    } else {
      assert p == t;
    }
    TrimSpaceOfTrimmed(p);
    assert Kept(p);
    assert ExpandHome(home, p) == p;
  }

  /**
    Parsing is idempotent when the home directory is an absolute path with no
    surrounding white space: every produced path is already trimmed, is not a
    comment and carries no "~/" left to expand.
   */
  lemma {:induction false} ParseIdempotent(home: string, lines: seq<string>)
    requires HasPrefix(home, "/") && !IsSpace(home[|home| - 1])
    ensures ParseScanPaths(home, ParseScanPaths(home, lines)) == ParseScanPaths(home, lines)
    decreases |lines|
  {
    if |lines| > 0 {
      var rest := ParseScanPaths(home, lines[1..]);
      ParseIdempotent(home, lines[1..]);
      if Kept(lines[0]) {
        var p := ParseLine(home, lines[0]).value;
        assert ParseScanPaths(home, lines) == [p] + rest;
        ParsedPathIsFixed(home, lines[0]);
        assert ([p] + rest)[1..] == rest;
        assert ([p] + rest)[0] == p;
      }
    }
  }

  /** What opening the configuration file yields. */
  datatype ConfigFile =
    | Missing                                   // the file does not exist
    | OpenFailed                                // any other error opening it
    | Scanned(lines: seq<string>, scanFailed: bool)

  datatype LoadResult = Loaded(paths: seq<string>) | LoadFailed

  /**
    `loadPathsToScan`: the configuration path itself has "~/" expanded; a
    missing file is an empty list, other open errors and scan errors fail.
   */
  function LoadPathsToScan(home: string, configPath: string, open: string -> ConfigFile): (r: LoadResult)
    ensures open(ExpandHome(home, configPath)).Missing? ==> r == Loaded([])
    ensures r.Loaded? && !open(ExpandHome(home, configPath)).Missing? ==>
              open(ExpandHome(home, configPath)).Scanned? &&
              r.paths == ParseScanPaths(home, open(ExpandHome(home, configPath)).lines)
    ensures r.LoadFailed? <==> open(ExpandHome(home, configPath)).OpenFailed? ||
                               (open(ExpandHome(home, configPath)).Scanned? && open(ExpandHome(home, configPath)).scanFailed)
  {
    var path := ExpandHome(home, configPath);
    match open(path)
    case Missing => Loaded([])
    case OpenFailed => LoadFailed
    case Scanned(lines, scanFailed) =>
      if scanFailed then LoadFailed else Loaded(ParseScanPaths(home, lines))
  }
}

=== FILE: strings.dfy ===
/**
  String predicates and transformations shared by the ingestion and watcher
  models: the parts of Go's `strings` package the watcher uses (HasPrefix,
  HasSuffix, Contains, TrimSpace), `unicode.IsSpace`, and the `join` of a
  JavaScript array of strings.
  Strings are sequences of Unicode scalar values.
 */
module Strings {

  predicate HasPrefix(s: string, prefix: string) {
    |prefix| <= |s| && s[..|prefix|] == prefix
  }

  predicate HasSuffix(s: string, suffix: string) {
    |suffix| <= |s| && s[|s| - |suffix|..] == suffix
  }

  /** `s` starts with `prefix` exactly when it is `prefix` followed by some string. */
  lemma HasPrefixIffConcat(s: string, prefix: string)
    ensures HasPrefix(s, prefix) <==> exists t :: s == prefix + t
  {
    if HasPrefix(s, prefix) {
      assert s == prefix + s[|prefix|..];
    }
    forall t | s == prefix + t ensures HasPrefix(s, prefix) {
      assert (prefix + t)[..|prefix|] == prefix;
    }
  }

  /** `s` ends with `suffix` exactly when it is some string followed by `suffix`. */
  lemma HasSuffixIffConcat(s: string, suffix: string)
    ensures HasSuffix(s, suffix) <==> exists t :: s == t + suffix
  {
    if HasSuffix(s, suffix) {
      assert s == s[..|s| - |suffix|] + suffix;
    }
    forall t | s == t + suffix ensures HasSuffix(s, suffix) {
      assert (t + suffix)[|t|..] == suffix;
    }
  }

  /** `sub` occurs in `s` starting at index `i`. */
  predicate OccursAt(s: string, sub: string, i: int) {
    0 <= i && i + |sub| <= |s| && s[i..i + |sub|] == sub
  }

  /** Go's `strings.Contains`: a left-to-right scan for an occurrence of `sub`. */
  function Contains(s: string, sub: string): (r: bool)
    ensures r <==> exists i :: OccursAt(s, sub, i)
    decreases |s|
  {
    if HasPrefix(s, sub) then
      assert OccursAt(s, sub, 0);
      true
    else if |s| == 0 then
      false
    else
      var rest := Contains(s[1..], sub);
      assert forall i :: OccursAt(s[1..], sub, i) <==> OccursAt(s, sub, i + 1) by {
        forall i ensures OccursAt(s[1..], sub, i) <==> OccursAt(s, sub, i + 1) {
          if 0 <= i && i + |sub| <= |s| - 1 {
            assert s[1..][i..i + |sub|] == s[i + 1..i + 1 + |sub|];
          }
        }
      }
      assert !OccursAt(s, sub, 0);
      assert rest ==> exists i :: OccursAt(s, sub, i) by {
        if rest {
          var i :| OccursAt(s[1..], sub, i);
          assert OccursAt(s, sub, i + 1);
        }
      }
      assert (exists i :: OccursAt(s, sub, i)) ==> rest by {
        if exists i :: OccursAt(s, sub, i) {
          var i :| OccursAt(s, sub, i);
          assert i != 0;
          assert OccursAt(s[1..], sub, i - 1);
        }
      }
      rest
  }

  /**
    Go's `unicode.IsSpace`: the Latin-1 spaces '\t', '\n', '\v', '\f', '\r',
    ' ', U+0085 (NEL) and U+00A0 (NBSP), and above Latin-1 the characters with
    the Unicode White_Space property.
   */
  predicate IsSpace(c: char) {
    || c == ' ' || c == '\t' || c == '\n' || c == '\U{0B}' || c == '\U{0C}' || c == '\r'
    || c == '\U{85}' || c == '\U{A0}'
    || c == '\U{1680}'
    || ('\U{2000}' <= c <= '\U{200A}')
    || c == '\U{2028}' || c == '\U{2029}' || c == '\U{202F}' || c == '\U{205F}'
    || c == '\U{3000}'
  }

  predicate AllSpace(s: string) {
    forall i :: 0 <= i < |s| ==> IsSpace(s[i])
  }

  /** Drops the leading white space of `s`. */
  function TrimLeft(s: string): (r: string)
    ensures HasSuffix(s, r)
    ensures AllSpace(s[..|s| - |r|])
    ensures |r| > 0 ==> !IsSpace(r[0])
    decreases |s|
  {
    if |s| > 0 && IsSpace(s[0]) then
      var r := TrimLeft(s[1..]);
      assert s[..|s| - |r|] == [s[0]] + s[1..][..|s| - 1 - |r|];
      r
    else
      s
  }

  /** Drops the trailing white space of `s`. */
  function TrimRight(s: string): (r: string)
    ensures HasPrefix(s, r)
    ensures AllSpace(s[|r|..])
    ensures |r| > 0 ==> !IsSpace(r[|r| - 1])
    decreases |s|
  {
    if |s| > 0 && IsSpace(s[|s| - 1]) then
      var r := TrimRight(s[..|s| - 1]);
      assert s[|r|..] == s[..|s| - 1][|r|..] + [s[|s| - 1]];
      r
    else
      s
  }

  /** Number of white-space characters at the start of `s`. */
  function LeadingSpace(s: string): (k: nat)
    ensures k <= |s|
  {
    |s| - |TrimLeft(s)|
  }

  /**
    Go's `strings.TrimSpace`: the longest infix of `s` that neither starts nor
    ends with white space, obtained by removing white space from both ends.
   */
  function TrimSpace(s: string): (r: string)
    ensures |r| > 0 ==> !IsSpace(r[0]) && !IsSpace(r[|r| - 1])
    ensures OccursAt(s, r, LeadingSpace(s))
    ensures AllSpace(s[..LeadingSpace(s)]) && AllSpace(s[LeadingSpace(s) + |r|..])
  {
    var l := TrimLeft(s);
    var r := TrimRight(l);
    SuffixSlices(s, |s| - |l|, |r|);
    r
  }

  /** Slicing a suffix of `s` is slicing `s` itself, shifted. */
  lemma SuffixSlices<T>(s: seq<T>, a: nat, k: nat)
    requires a + k <= |s|
    ensures s[a..][..k] == s[a..a + k]
    ensures s[a..][k..] == s[a + k..]
  {
  }

  /** A string is all white space exactly when it concatenates two all-white-space strings. */
  lemma AllSpaceConcat(a: string, b: string)
    ensures AllSpace(a + b) <==> AllSpace(a) && AllSpace(b)
  {
    if AllSpace(a) && AllSpace(b) {
      forall i | 0 <= i < |a + b| ensures IsSpace((a + b)[i]) {
        if i < |a| { assert (a + b)[i] == a[i]; } else { assert (a + b)[i] == b[i - |a|]; }
      }
    }
    if AllSpace(a + b) {
      forall i | 0 <= i < |a| ensures IsSpace(a[i]) { assert (a + b)[i] == a[i]; }
      forall i | 0 <= i < |b| ensures IsSpace(b[i]) { assert (a + b)[|a| + i] == b[i]; }
    }
  }

  /** Trimming leaves nothing exactly when the string is all white space. */
  lemma TrimSpaceEmptyIffAllSpace(s: string)
    ensures TrimSpace(s) == [] <==> AllSpace(s)
  {
    var a := LeadingSpace(s);
    if TrimSpace(s) == [] {
      assert s == s[..a] + s[a..];
      AllSpaceConcat(s[..a], s[a..]);
    }
  }

  /** Total number of characters in `parts`. */
  function TotalLength(parts: seq<string>): nat {
    if |parts| == 0 then 0 else |parts[0]| + TotalLength(parts[1..])
  }

  /**
    JavaScript's `Array.prototype.join(sep)` on an array of strings: the parts in
    order with one `sep` between neighbours and none at the ends.
   */
  function Join(parts: seq<string>, sep: string): (r: string)
    ensures |parts| == 0 ==> r == ""
    ensures |parts| == 1 ==> r == parts[0]
    ensures |parts| > 0 ==> HasPrefix(r, parts[0])
    ensures |parts| > 0 ==> |r| == TotalLength(parts) + (|parts| - 1) * |sep|
  {
    if |parts| == 0 then ""
    else if |parts| == 1 then parts[0]
    else parts[0] + sep + Join(parts[1..], sep)
  }

  /**
    Joining is compatible with concatenation: joining two non-empty runs of
    parts is joining each and putting one separator between them.
   */
  lemma {:induction false} JoinConcat(a: seq<string>, b: seq<string>, sep: string)
    requires |a| > 0 && |b| > 0
    ensures Join(a + b, sep) == Join(a, sep) + sep + Join(b, sep)
    decreases |a|
  {
    if |a| == 1 {
      assert (a + b)[1..] == b;
    } else {
      assert (a + b)[1..] == a[1..] + b;
      JoinConcat(a[1..], b, sep);
    }
  }

  /** Every part appears in the joined string, in order: the i-th part begins right after the i-th separator. */
  lemma {:induction false} JoinSplitsAt(parts: seq<string>, sep: string, i: nat)
    requires 0 < i < |parts|
    ensures Join(parts, sep) == Join(parts[..i], sep) + sep + Join(parts[i..], sep)
    ensures HasPrefix(Join(parts[i..], sep), parts[i])
  {
    assert parts == parts[..i] + parts[i..];
    JoinConcat(parts[..i], parts[i..], sep);
  }
}

=== FILE: vector_store.dfy ===
/**
  The vector store as the ingestion code sees it: an ordered collection of
  chunk entries, each tagged with the file it came from and that file's
  modification time in milliseconds. Embeddings are not modelled.
 */
module VectorStore {
  import opened Maybe

  datatype Entry = Entry(text: string, source: string, lastModified: int)

  type Store = seq<Entry>

  /** The entries of `store` whose source is `source`, in store order. */
  function EntriesFor(store: Store, source: string): (r: seq<Entry>)
    ensures |r| <= |store|
    ensures forall e :: e in r <==> e in store && e.source == source
    decreases |store|
  {
    if |store| == 0 then []
    else
      var rest := EntriesFor(store[1..], source);
      assert forall e :: e in store <==> e == store[0] || e in store[1..];
      if store[0].source == source then [store[0]] + rest else rest
  }

  lemma {:induction false} EntriesForConcat(a: Store, b: Store, source: string)
    ensures EntriesFor(a + b, source) == EntriesFor(a, source) + EntriesFor(b, source)
    decreases |a|
  {
    if |a| == 0 {
      assert a + b == b;
    } else {
      assert (a + b)[0] == a[0];
      assert (a + b)[1..] == a[1..] + b;
      EntriesForConcat(a[1..], b, source);
    }
  }

  /** The store after deleting by the filter `{source}`: every other entry, in order. */
  function DeleteSource(store: Store, source: string): (r: Store)
    ensures |r| <= |store|
    ensures forall e :: e in r <==> e in store && e.source != source
    decreases |store|
  {
    if |store| == 0 then []
    else
      var rest := DeleteSource(store[1..], source);
      assert forall e :: e in store <==> e == store[0] || e in store[1..];
      if store[0].source == source then rest else [store[0]] + rest
  }

  /** Deleting one source keeps every other source's entries exactly, in order. */
  lemma {:induction false} DeleteKeepsOtherSources(store: Store, source: string, other: string)
    requires other != source
    ensures EntriesFor(DeleteSource(store, source), other) == EntriesFor(store, other)
    decreases |store|
  {
    if |store| > 0 {
      DeleteKeepsOtherSources(store[1..], source, other);
      if store[0].source != source {
        assert DeleteSource(store, source) == [store[0]] + DeleteSource(store[1..], source);
        assert ([store[0]] + DeleteSource(store[1..], source))[1..] == DeleteSource(store[1..], source);
      }
    }
  }

  /** Deleting by the filter when no entry matches it leaves the store as it was. */
  lemma {:induction false} DeleteAbsentIsNoOp(store: Store, source: string)
    requires EntriesFor(store, source) == []
    ensures DeleteSource(store, source) == store
    decreases |store|
  {
    if |store| > 0 {
      assert store[0] !in EntriesFor(store, source);
      assert EntriesFor(store[1..], source) == [] by {
        assert forall e :: e in store[1..] ==> e in store;
      }
      DeleteAbsentIsNoOp(store[1..], source);
      assert [store[0]] + store[1..] == store;
    }
  }

  /** Chunk texts as store entries, each tagged with the file and its time. */
  function Tag(chunks: seq<string>, source: string, lastModified: int): (r: seq<Entry>)
    ensures |r| == |chunks|
    ensures forall i :: 0 <= i < |r| ==> r[i].text == chunks[i]
    ensures forall e :: e in r ==> e.source == source && e.lastModified == lastModified
  {
    seq(|chunks|, i requires 0 <= i < |chunks| => Entry(chunks[i], source, lastModified))
  }

  /** Entries that all come from `source` are all of that source's entries and none of another's. */
  lemma {:induction false} EntriesForSingleSource(entries: seq<Entry>, source: string)
    requires forall e :: e in entries ==> e.source == source
    ensures EntriesFor(entries, source) == entries
    ensures forall other :: other != source ==> EntriesFor(entries, other) == []
    decreases |entries|
  {
    if |entries| > 0 {
      assert forall e :: e in entries[1..] ==> e in entries;
      EntriesForSingleSource(entries[1..], source);
      assert [entries[0]] + entries[1..] == entries;
    }
  }

  /** Deleting a source removes all its entries and keeps every other source's entries, in order. */
  lemma DeleteSourceEntries(store: Store, source: string)
    ensures EntriesFor(DeleteSource(store, source), source) == []
    ensures forall other :: other != source ==> EntriesFor(DeleteSource(store, source), other) == EntriesFor(store, other)
  {
    forall other | other != source
      ensures EntriesFor(DeleteSource(store, source), other) == EntriesFor(store, other)
    {
      DeleteKeepsOtherSources(store, source, other);
    }
  }

  /**
    Delete-then-add: every entry of `source` is replaced by `added`. When the
    added entries all come from `source`, that source's entries become exactly
    `added` and every other source's entries stay as they were.
   */
  function ReplaceSource(store: Store, source: string, added: seq<Entry>): (r: Store)
    requires forall e :: e in added ==> e.source == source
    ensures EntriesFor(r, source) == added
    ensures forall other :: other != source ==> EntriesFor(r, other) == EntriesFor(store, other)
    ensures |r| == |DeleteSource(store, source)| + |added|
  {
    var cleared := DeleteSource(store, source);
    DeleteSourceEntries(store, source);
    EntriesForSingleSource(added, source);
    EntriesForConcat(cleared, added, source);
    assert forall other :: other != source ==> EntriesFor(cleared + added, other) == EntriesFor(store, other) by {
      forall other | other != source ensures EntriesFor(cleared + added, other) == EntriesFor(store, other) {
        EntriesForConcat(cleared, added, other);
      }
    }
    cleared + added
  }

  /** All entries of one source carry one modification time. */
  predicate UniformTimes(store: Store) {
    forall e1, e2 :: e1 in store && e2 in store && e1.source == e2.source ==>
      e1.lastModified == e2.lastModified
  }

  /** The modification time stored for `source`: that of its first entry, if any. */
  function StoredTime(store: Store, source: string): (r: Option<int>)
    ensures r.None? <==> EntriesFor(store, source) == []
    ensures r.Some? ==> exists e :: e in store && e.source == source && e.lastModified == r.value
    ensures r.Some? && UniformTimes(store) ==>
              forall e :: e in store && e.source == source ==> e.lastModified == r.value
  {
    var m := EntriesFor(store, source);
    if |m| == 0 then None
    else
      assert m[0] in m;
      Some(m[0].lastModified)
  }
}

=== FILE: watcher_filter.dfy ===
/**
  The watcher's path filter (brain-watcher/main.go, `shouldProcess`): a path is
  refused when it lies under a blocklisted directory; otherwise a directory is
  scanned, and a file is kept when its exact name or its extension is
  whitelisted.
 */
module WatcherFilter {
  import opened Strings
  import GoPath

  /** Directories never descended into, even inside a project. */
  const BlocklistSubDirs: seq<string> := [
    ".git",
    "node_modules",
    ".cache",
    "__pycache__",
    "chroma_data",
    "build",
    "dist",
    "target",
    "go/pkg/mod",
    ".config/notion-app-enhanced",
    ".config/Cursor",
    ".config/BraveSoftware",
    ".config/discord",
    ".config/spotify",
    ".local/share/Steam",
    ".local/share/Trash",
    ".docker",
    ".config/GitKraken",
    ".config/MongoDB Compass",
    ".config/Notion",
    ".config/teams-for-linux",
    ".config/Postman",
    ".config/pulse",
    ".config/vscode-vibrancy-continued-nodejs"
  ]

  /** File extensions that are indexed. */
  const WhitelistExtensions: set<string> := {
    ".txt", ".md", ".conf", ".sh", ".json", ".js", ".ts", ".go", ".py",
    ".css", ".html", ".toml", ".yaml", ".yml"
  }

  /** Exact file names that are indexed whatever their extension. */
  const WhitelistFilenames: set<string> := {
    ".zshrc", ".bashrc", ".bash_profile", ".gitconfig", "config"
  }

  /** `path` contains "/d/" or ends with "/d". */
  predicate BlockedBy(path: string, d: string) {
    Contains(path, "/" + d + "/") || HasSuffix(path, "/" + d)
  }

  /** Some blocklisted directory blocks `path`. */
  predicate Blocked(path: string) {
    exists i :: 0 <= i < |BlocklistSubDirs| && BlockedBy(path, BlocklistSubDirs[i])
  }

  /** The file name or the extension of `path` is whitelisted. */
  predicate WhitelistedFile(path: string) {
    GoPath.Base(path) in WhitelistFilenames || GoPath.Ext(path) in WhitelistExtensions
  }

  /**
    `shouldProcess`: the blocklist is scanned first and wins for files and
    directories alike; a file then passes on its exact name or its extension;
    a directory that is not blocked passes.
   */
  method ShouldProcess(path: string, isDir: bool) returns (r: bool)
    ensures Blocked(path) ==> !r
    ensures !Blocked(path) && !isDir ==> (r <==> WhitelistedFile(path))
    ensures !Blocked(path) && isDir ==> r
  {
    var i := 0;
    while i < |BlocklistSubDirs|
      invariant 0 <= i <= |BlocklistSubDirs|
      invariant forall j :: 0 <= j < i ==> !BlockedBy(path, BlocklistSubDirs[j])
    {
      var blockedDir := BlocklistSubDirs[i];
      if Contains(path, "/" + blockedDir + "/") || HasSuffix(path, "/" + blockedDir) {
        return false;
      }
      i := i + 1;
    }

    if !isDir {
      var filename := GoPath.Base(path);
      if filename in WhitelistFilenames {
        return true;
      }
      var ext := GoPath.Ext(path);
      if ext in WhitelistExtensions {
        return true;
      }
      return false;
    }

    return true;
  }

  /** A blocklist entry `d` can only match where a separator stands right before "d". */
  lemma {:induction false} BlockedByNeedsSeparatorBefore(path: string, d: string)
    requires BlockedBy(path, d)
    ensures exists i :: OccursAt(path, "/" + d, i)
  {
    if Contains(path, "/" + d + "/") {
      var i :| OccursAt(path, "/" + d + "/", i);
      assert path[i..i + |"/" + d|] == path[i..i + |"/" + d + "/"|][..|"/" + d|];
      assert OccursAt(path, "/" + d, i);
    } else {
      assert OccursAt(path, "/" + d, |path| - |"/" + d|);
    }
  }

  /**
    A blocklist entry matches only at the start of a path element: when no
    separator in `path` is followed by the first character of `d`, `d` does
    not block it.
   */
  lemma NoSeparatorBeforeNotBlocked(path: string, d: string)
    requires d != ""
    requires forall i :: 0 <= i < |path| - 1 && path[i] == '/' ==> path[i + 1] != d[0]
    ensures !BlockedBy(path, d)
  {
    var needle := "/" + d;
    forall i | 0 <= i && i + |needle| <= |path| ensures !OccursAt(path, needle, i) {
      if path[i] == '/' {
        assert path[i..i + |needle|][1] == path[i + 1] != needle[1];
      } else {
        assert path[i..i + |needle|][0] == path[i] != needle[0];
      }
    }
    if BlockedBy(path, d) {
      BlockedByNeedsSeparatorBefore(path, d);
    }
  }

  /** A directory whose name merely ends with a blocklisted name is not blocked by it: "rebuild" is not "build". */
  lemma RebuildIsNotBuild()
    ensures !BlockedBy("/p/rebuild/f.md", "build")
  {
    var path := "/p/rebuild/f.md";
    assert forall i :: 0 <= i < |path| - 1 && path[i] == '/' ==> i == 0 || i == 2 || i == 10;
    NoSeparatorBeforeNotBlocked(path, "build");
  }

  /** Anything below `node_modules` is refused, for example a package's entry point. */
  lemma NodeModulesRefused(project: string, file: string)
    ensures Blocked(project + "/node_modules/" + file)
  {
    var path := project + "/node_modules/" + file;
    var needle := "/" + "node_modules" + "/";
    assert path[|project|..|project| + |needle|] == needle;
    assert OccursAt(path, needle, |project|);
    assert BlockedBy(path, BlocklistSubDirs[1]);
  }
}
